=== FILE: README.md ===
# Potential-field grid engine

This project is a model of the potential-field demo of `rob102-web`, written in Dafny.

An occupancy grid is loaded from a map file and flattened into one array of cell odds. The odds are normalised to [0,1]. The user paints a scalar field over the free cells with a circular brush. A greedy descent then walks from a start cell to a local minimum of the field.

The model has six modules:

- `Grid` covers the row-major cell index `i + j * width` and what it means when only the linear index is bounds-checked.
- `Brush` is the brush edit as a pure specification. A stroke is a left fold that follows the two nested scan loops cell by cell. It also has a closed form that counts how many footprint cells land on each index.
- `Descent` defines the neighbour window, the descent step with its tie-break, and complete descent paths, over a read-only snapshot of the field.
- `Engine` holds the `PotentialField` class (`src/field.js`). Its fields are updated in place. Its nested-loop brush and its descent loop are proved against the `Brush` and `Descent` specifications.
- `MapHelpers` and `Scene` cover the page (`src/main.js`):
  - map parsing and `normalizeList`, which rescales in place on an array;
  - the `SceneView` component's own field, its brush, the map reset and the goal check. The component's React state is a record value (`PageState`), and each `setState` replaces it with a copy that has some fields updated.

`demo/potential-field/field.js` and `demo/potential-field/main.js` are transpiled copies of the two files under `src/`. They have the same branches, constants and loops, so each operation is modelled once. Some rows below cite the transpiled copy, at its own line numbers. For example, `changeFieldCell` is at `field.js:88-107` and `src/field.js:71-89`, and `normalizeList` is at `main.js:239-260` and `src/main.js:177-198`.

JavaScript semantics the model reproduces:

- Reading past the end of the occupancy array gives `undefined`. `undefined > thresh` is false, so such a cell counts as free (`Brush.Blocked`). `undefined < 0.5` is also false, so such a goal is invalid (`Scene.GoalValid`).
- `Array(n)` throws a RangeError unless `0 <= n <= 2^32 - 1`. `Reset`, `SetCells` and `UpdateMap` return `ok == false` in that case and keep the old field.
- If the descent starts outside the field, the current value is `undefined` and every difference is NaN. No move is taken and the path is just the start.

## Model

| member | source | states |
|---|---|---|
| Grid.CellIdxDecode | demo/potential-field/src/main.js:95-97 | For a column in `[0, width)`, the index decodes back: the remainder by `width` is the column and the quotient is the row. |
| Grid.CellIdxInjective | demo/potential-field/main.js:104-107 | Two cells whose columns lie inside the grid share an index only when they are the same cell. |
| Grid.CellIdxInRange | demo/potential-field/src/main.js:95-97 | For a column inside the grid, the index lies in `[0, width*height)` exactly when the row lies in `[0, height)`. |
| Grid.ColumnWrap | demo/potential-field/src/main.js:95-97 | Column -1 of row `j` has the index of the last column of row `j-1`, and column `width` has that of column 0 of row `j+1`. |
| Brush.StepNAdd | demo/potential-field/src/field.js:82-83 | Applying `a` brush steps and then `b` more is the same as applying `a+b` steps. |
| Brush.ClampedStepInUnit | demo/potential-field/src/field.js:82-83 | The engine's step `min(max(v ± delta, 0), 1)` lands in [0,1] for any value and any delta. |
| Brush.StepRulesAgree | demo/potential-field/src/main.js:604-609 | On values in [0,1] with a non-negative delta, the page's one-sided clamp gives the same value as the engine's two-sided clamp. |
| Brush.TimesIsProduct | demo/potential-field/src/field.js:82-83 | The delta that `n` repeated steps add up to is `n` times the delta, so `n*delta` in the closed forms is the ordinary product. |
| Brush.StepNClosedForm | demo/potential-field/src/field.js:82-83 | With a non-negative delta, `n` steps on a value in [0,1] move it by `n*delta` towards 1 (increase) or 0 (decrease), stopping at that end. `setBrush` accepts any delta, and this lemma says nothing about a negative one. |
| Brush.StepNInUnit | demo/potential-field/field.js:100-101 | Any number of steps keeps a value in [0,1]. This holds for the engine's clamp, and for the page's clamp when the delta is non-negative. |
| Brush.PaintAt | demo/potential-field/src/field.js:71-89 | After a stroke, a blocked cell keeps its value. Any other cell has been stepped once per footprint cell landing on its index. |
| Brush.HitsIffFootprint | demo/potential-field/src/field.js:72-77 | An index is hit exactly when some scanned `(i, j)` lies in the half-open square `[c-r, c+r)` and in the closed disk `(i-row)²+(j-col)² <= r²`, and has that index. |
| Brush.PaintFrame | demo/potential-field/src/field.js:79-80 | A blocked cell, and a cell no footprint cell lands on, keeps its value. |
| Brush.PaintChangesOnlyFootprint | demo/potential-field/src/field.js:71-89 | A cell whose value changes is unblocked and is the index of some footprint cell. |
| Brush.PaintClosedForm | demo/potential-field/field.js:88-107 | On a field in [0,1] with a non-negative delta, each free cell moves by `hits*delta` towards the brush's end, clamped there. |
| Brush.PaintKeepsUnit | demo/potential-field/src/field.js:83 | A stroke keeps every value of a field in [0,1] inside [0,1], and keeps the field's length. |
| Brush.PaintMonotone | demo/potential-field/src/field.js:82-83 | On a field in [0,1] with a non-negative delta, an increasing stroke never lowers a cell and a decreasing one never raises a cell. `setBrush` accepts any delta; with a negative one the directions swap, and this lemma says nothing about that case. |
| Brush.PaintSaturated | demo/potential-field/src/main.js:604-609 | On a field in [0,1] with a non-negative delta, a stroke changes nothing when the field's free cells already sit at the brush's end (0 for decrease, 1 for increase). With a negative delta the engine's stroke would move such cells, and this lemma does not cover that case. |
| Brush.HitsRadiusOne | demo/potential-field/src/field.js:72-75 | With radius 1 the scan covers only the four cells of rows `row-1, row` and columns `col-1, col`, and each counts only if it passes the disk test. The disk test keeps three of them and drops `(row-1, col-1)`. The far neighbours are never painted. |
| Brush.FiveByFiveStroke | demo/potential-field/src/field.js:72-83 | On a free 5×5 grid of ones, a radius-1 decrease of 0.1 at (2,2) lowers exactly (1,2), (2,1) and (2,2) to 0.9. Every other cell, including (3,2), (2,3) and (1,1), stays 1.0. |
| Brush.NarrowGridDoubleHit | demo/potential-field/src/field.js:77 | On a grid of width 1, the cells (row-1, col) and (row, col-1) of one radius-1 footprint share the index `row+col-1`. When that index is in the field and unblocked, that cell is stepped twice in one stroke. |
| Brush.PaintRulesAgree | demo/potential-field/src/main.js:596-609 | On a field in [0,1] with a non-negative delta, the page brush and the engine brush paint the same field. |
| Descent.LevelDecreases | demo/potential-field/src/field.js:127-131 | A move to a strictly lower cell strictly lowers the number of field cells below the current value. This is the descent's termination measure. |
| Descent.DescentStepDeterministic | demo/potential-field/src/field.js:113-128 | From a given cell, at most one cell is a descent step: the first minimiser in scan order among the unblocked window cells. |
| Descent.WindowWrapsAtLeftEdge | demo/potential-field/src/field.js:93-97 | At column 0 of a row `j >= 1` that lies wholly in the field, the window cell at column -1 passes the field check. Its index is that of the last cell of row `j-1`, so `neighbors8` returns a cell of the row above. |
| Descent.DescentFromStuckStart | demo/potential-field/src/field.js:126-132 | A start with no strictly lower unblocked window cell, or one outside the field, gives the path `[start]`. |
| Descent.FiveByFiveDescentStops | demo/potential-field/src/field.js:103-136 | After the 5×5 stroke of `Brush.FiveByFiveStroke`, the centre (2,2) has no strictly lower candidate, so `gradientDescent` from (2,2) returns `[(2,2)]`. |
| Descent.StuckHasNoStep | demo/potential-field/src/field.js:127-132 | A cell with no strictly lower candidate, or one outside the field, has no descent step. |
| Descent.DescentPathUnique | demo/potential-field/src/field.js:103-136 | Two complete descents from the same start are the same path. |
| Descent.DescentPathDecreases | demo/potential-field/src/field.js:119-131 | Along a descent path the field value strictly decreases, and every cell of a path of two or more cells lies in the field. |
| Descent.DescentPathShort | demo/potential-field/field.js:122-155 | The cells of a descent path have pairwise distinct indices. A descent that starts in the field has at most as many cells as the field. |
| Engine.PotentialField.constructor | demo/potential-field/src/field.js:2-16 | The threshold is stored. The brush starts as decrease, radius 3, delta 0.01. Occupancy and field start empty. |
| Engine.PotentialField.SetDraw | demo/potential-field/src/field.js:33-35 | Sets the brush direction and nothing else. |
| Engine.PotentialField.SetBrush | demo/potential-field/src/field.js:37-40 | Sets the brush radius and delta and nothing else. |
| Engine.PotentialField.Reset | demo/potential-field/src/field.js:48-51 | On success the field is a fresh array of `width*height` ones. It fails exactly when that length is negative or above `2^32-1`, and then the old field stays. |
| Engine.PotentialField.SetCells | demo/potential-field/src/field.js:42-46 | Stores the occupancy and the dimensions, then resets the field as `Reset` does. |
| Engine.PotentialField.ChangeFieldCell | demo/potential-field/src/field.js:71-89 | The nested loops turn the field into the stroke's fold over the scan. Blocked cells keep their value, and a field in [0,1] stays in [0,1]. |
| Engine.PotentialField.Neighbors8 | demo/potential-field/src/field.js:91-101 | The result holds exactly the cells of the 4×4 window `row-1..row+2` × `col-1..col+2` whose index is in the field. They come in row-major order, at most 16 of them. |
| Engine.PotentialField.GradientDescent | demo/potential-field/src/field.js:103-136 | Returns the complete descent from `start`: each move goes to the first lowest unblocked window cell and is strictly lower, and the last cell is stuck. The cells have distinct indices, so a start in the field gives at most `field.length` cells. |
| MapHelpers.MinMax | demo/potential-field/src/main.js:184-190 | The scan finds a true minimum and maximum of the list: both occur in it and bound every element. |
| MapHelpers.RescaleInPlace | demo/potential-field/src/main.js:193-195 | The second loop overwrites each element `x` with `(x - lo)/(hi - lo)`, in place. |
| MapHelpers.NormalizeList | demo/potential-field/src/main.js:177-198 | An empty list is returned as it is. A singleton gives a new `[1]` and leaves the input alone. A longer list is rescaled in place, each element becoming `(x - min)/(max - min)`. |
| MapHelpers.NormalizedInUnit | demo/potential-field/main.js:246-257 | Normalisation keeps the length and puts every value in [0,1]. The minimum maps to 0 (for two or more elements) and the maximum to 1, and a singleton maps to 1. |
| MapHelpers.NormalizedKeepsOrder | demo/potential-field/src/main.js:193-195 | For any two elements, `a <= b` holds exactly when their normalised values are in the same order. |
| MapHelpers.FlattenAppend | demo/potential-field/src/main.js:158-166 | Flattening the concatenation of two runs of lines is the concatenation of their flattenings. |
| MapHelpers.FlattenMembership | demo/potential-field/src/main.js:158-166 | A value is among the cells exactly when some line of more than one token holds it. |
| MapHelpers.FlattenLength | demo/potential-field/main.js:183-214 | The number of cells is the total length of the lines of more than one token. |
| MapHelpers.ParseMap | demo/potential-field/src/main.js:143-175 | Width and height come from header tokens 2 and 3, and `num_cells` is their product. The cells are the normalised tokens of every later multi-token line, in order. A count different from `num_cells` only sets a flag. |
| Scene.GoalValidIffFree | demo/potential-field/src/main.js:536-537 | A goal is valid exactly when it has two coordinates, indexes the occupancy, is not blocked for the page brush, and does not sit at exactly 0.5. |
| Scene.SceneView.constructor | demo/potential-field/src/main.js:376-406 | The page starts with no map, an empty field, no path, clicked cell or goal, a valid-goal flag, and the brush set to decrease. |
| Scene.SceneView.UpdateMap | demo/potential-field/src/main.js:420-438 | Installs the map, marks it loaded when it has cells, and clears path, clicked and goal cells. The field becomes `num_cells` ones and the field canvas takes the map's size, unless `Array` throws. |
| Scene.SceneView.OnIncreaseCheck | demo/potential-field/src/main.js:570-572 | Flips the page brush's direction and nothing else. |
| Scene.SceneView.ChangeFieldCell | demo/potential-field/src/main.js:592-614 | The nested loops turn the page's field into the fold of the page stroke: radius 3, threshold 0.5, delta 0.01, one-sided clamp, bound `num_cells`. Blocked cells keep their value, and a field in [0,1] stays in [0,1]. |
| Scene.SceneView.SetGoal | demo/potential-field/src/main.js:533-542 | An empty goal returns false and changes nothing. Any other goal is stored with its validity, and the validity is returned. |

## Behaviour of the code worth knowing


- **The brush scan is half-open.** Both brushes scan `[row-r, row+r)` × `[col-r, col+r)`, so the disk loses its highest row and its highest column. A radius-1 stroke at (2,2) lowers (1,2), (2,1) and (2,2), not the four edge-adjacent cells (`Brush.FiveByFiveStroke`, `Brush.HitsRadiusOne`).
- **The neighbour window is 4×4 and includes the current cell.** `neighbors8` scans `row-1..row+2` × `col-1..col+2`, so it is not the ring of eight cells around the current one. It checks only the linear index, so cells past a side edge wrap into the next or previous row (`Grid.ColumnWrap`, `Descent.WindowWrapsAtLeftEdge`).
- **The occupancy length is never checked against the dimensions.** `setCells` (`src/field.js:42-46`) and `updateMap` (`src/main.js:420-438`) accept occupancy of any length. Only `parseMap` notices a count that differs from `width*height`, and it only warns (`MapHelpers.ParseMap`'s `countMatches`). The engine then reads missing occupancy as free (`Brush.Blocked`).
- **A grid narrower than the brush paints a cell more than once.** Distinct footprint cells can share a linear index, and that cell is then stepped once per hit (`Brush.NarrowGridDoubleHit`).
- **A constant list is not normalised to a constant.** For a list of two or more values that are all equal, `normalizeList` computes `0/0`, which is NaN. `NormalizeList` and `ParseMap` require a list whose minimum is below its maximum.
- **The goal test and the brush use different comparisons at 0.5.** A cell at exactly 0.5 is painted, but it is not a valid goal (`Scene.GoalValidIffFree`).

## Left out

- Canvas rendering is not modelled: `drawField`, `drawCell`, `clear`, `init`, `hide`/`show`, `getColor` and the robot drawing. The draw calls inside both brushes are ignored side effects.
- React and browser I/O are not modelled: JSX, the component lifecycle, `FileReader` uploads, mouse handlers and their pixel-to-cell `Math.floor` conversions, `timer`/`findDirection`, and `onPlan`.
- `componentDidMount` sizes the field canvas to the 800-pixel display, so before any map `gridWidth` would be 800, not 0. No cell can be painted then, because `num_cells` is 0.
- `onFieldCheck` also resets the brush direction to decrease. It is a UI handler and is not modelled.
- The string-to-number conversions (`trim`, `split`, `parseFloat`, `parseInt`) are not modelled. `ParseMap` takes lines that are already split into integer tokens.
- The header's origin and metres-per-cell, and the derived `cellSize` and `pixelsPerMeter`, are not modelled; they are used only for display.
- Numbers are exact reals and integers. IEEE-754 rounding, NaN propagation and non-integer widths from `parseFloat` are not modelled.
- No round-trip claim is made, such as "increase then decrease restores a value". The clamp makes such claims false at the ends of [0,1], and the code does not promise them.
- MapHelpers.NormalizeList: requires a list whose minimum is below its maximum when it has two or more elements. The NaN results of a constant list are not modelled.
- MapHelpers.ParseMap: requires a header of at least four tokens. A missing or short header gives NaN dimensions, which are not modelled. It also requires that the cells can be normalised, as for `NormalizeList`.
- Scene.SceneView.ChangeFieldCell: requires the page's field to have `num_cells` elements. This holds after construction and after every `UpdateMap` that does not throw. A throwing `updateMap` leaves an older, shorter field, and writing past its end in JavaScript would grow the array; that case is not modelled.
- Scene.SceneView.UpdateMap: assumes the state update is applied before the field canvas is resized, so the canvas takes the new map's width and height. This is how a `setState` made outside a React event handler behaves under `ReactDOM.render`.
- Engine.PotentialField.GradientDescent: skips the scan when the current index is outside the field. In JavaScript the scan runs but every difference is NaN, so nothing is chosen either way.
- Engine.PotentialField.SetCells: assumes the field canvas was initialised. `setSize` (`src/main.js:89-93`) reads the canvas width, so before `init` has run, `setCells` throws a TypeError after it has stored the occupancy and the dimensions, and the field is not reset. The model always resets.

=== FILE: brush.dfy ===
/**
  The brush edit of the potential field, as a specification over values.

  A stroke scans the half-open square `[row-r, row+r) x [col-r, col+r)` row
  by row, skips cells outside the disk `(i-row)^2 + (j-col)^2 <= r^2`, skips
  linear indices outside the field and blocked cells, and applies one step to
  every other cell it meets. Because only the linear index is checked, two
  cells of the square can share an index on a narrow grid; the specification
  therefore folds over the scan in order instead of updating a set of cells.
 */
module Brush {
  import opened Grid

  function Min(a: real, b: real): real { if a <= b then a else b }
  function Max(a: real, b: real): real { if a >= b then a else b }
  function Sq(x: int): int { x * x }

  /** How one application changes a painted value. */
  datatype StepRule =
    | /** the engine brush: `min(max(v + dir*delta, 0), 1)` */
      Clamped(increase: bool, delta: real)
    | /** the page's older brush: `max(v - delta, 0)` or `min(v + delta, 1)` */
      OneSided(increase: bool, delta: real)

  function Step(rule: StepRule, v: real): real
  {
    match rule
    case Clamped(inc, d) => Min(Max(v + (if inc then d else -d), 0.0), 1.0)
    case OneSided(inc, d) => if inc then Min(v + d, 1.0) else Max(v - d, 0.0)
  }

  /** `n` applications of `Step`. */
  function StepN(rule: StepRule, v: real, n: nat): real
  {
    if n == 0 then v else Step(rule, StepN(rule, v, n - 1))
  }

  /** Everything one brush call reads besides the field itself. */
  datatype Stroke = Stroke(row: int, col: int, radius: int, width: int,
                           odds: seq<real>, thresh: real, rule: StepRule)

  /** A cell is blocked when its occupancy exceeds the threshold. An index
      past the end of the occupancy array reads `undefined`, which compares
      false, so such a cell is not blocked. */
  predicate Blocked(odds: seq<real>, thresh: real, k: int)
  {
    0 <= k < |odds| && odds[k] > thresh
  }

  predicate InDisk(s: Stroke, i: int, j: int)
  {
    Sq(i - s.row) + Sq(j - s.col) <= Sq(s.radius)
  }

  predicate InSquare(s: Stroke, i: int, j: int)
  {
    s.row - s.radius <= i < s.row + s.radius && s.col - s.radius <= j < s.col + s.radius
  }

  /** The cells (row `i`, column `j`) the scan does not skip by shape. */
  predicate InFootprint(s: Stroke, i: int, j: int)
  {
    InSquare(s, i, j) && InDisk(s, i, j)
  }

  /** One iteration of the inner loop, at row `i`, column `j`. */
  function PaintCell(s: Stroke, f: seq<real>, i: int, j: int): (r: seq<real>)
    ensures |r| == |f|
  {
    var k := CellIdx(s.width, j, i);
    if !InDisk(s, i, j) then f
    else if k < 0 || k >= |f| then f
    else if Blocked(s.odds, s.thresh, k) then f
    else f[k := Step(s.rule, f[k])]
  }

  /** Row `i` painted from column `col-r` up to, not including, column `j`. */
  function PaintRow(s: Stroke, f: seq<real>, i: int, j: int): (r: seq<real>)
    ensures |r| == |f|
    decreases j - (s.col - s.radius)
  {
    if j <= s.col - s.radius then f
    else PaintCell(s, PaintRow(s, f, i, j - 1), i, j - 1)
  }

  /** Rows `row-r` up to, not including, row `i` painted in full. */
  function PaintRows(s: Stroke, f: seq<real>, i: int): (r: seq<real>)
    ensures |r| == |f|
    decreases i - (s.row - s.radius)
  {
    if i <= s.row - s.radius then f
    else PaintRow(s, PaintRows(s, f, i - 1), i - 1, s.col + s.radius)
  }

  /** The field after one whole brush call. */
  function Paint(s: Stroke, f: seq<real>): seq<real>
  {
    PaintRows(s, f, s.row + s.radius)
  }

  /** How many cells of row `i`, before column `j`, pass the disk test and
      have linear index `k`. */
  function RowHits(s: Stroke, k: int, i: int, j: int): nat
    decreases j - (s.col - s.radius)
  {
    if j <= s.col - s.radius then 0
    else RowHits(s, k, i, j - 1) + (if InDisk(s, i, j - 1) && CellIdx(s.width, j - 1, i) == k then 1 else 0)
  }

  function RowsHits(s: Stroke, k: int, i: int): nat
    decreases i - (s.row - s.radius)
  {
    if i <= s.row - s.radius then 0
    else RowsHits(s, k, i - 1) + RowHits(s, k, i - 1, s.col + s.radius)
  }

  /** How many footprint cells of a stroke land on linear index `k`. */
  function Hits(s: Stroke, k: int): nat
  {
    RowsHits(s, k, s.row + s.radius)
  }

  predicate AllInUnit(f: seq<real>)
  {
    forall k :: 0 <= k < |f| ==> 0.0 <= f[k] <= 1.0
  }

  // ---------------------------------------------------------------------
  // Steps

  lemma {:induction false} StepNAdd(rule: StepRule, v: real, a: nat, b: nat)
    ensures StepN(rule, StepN(rule, v, a), b) == StepN(rule, v, a + b)
  {
    if b > 0 {
      StepNAdd(rule, v, a, b - 1);
    }
  }

  /** Where a value in [0,1] ends after a total movement `t` in the rule's
      direction, stopping at the end of the interval. */
  function Travel(rule: StepRule, v: real, t: real): real
  {
    if rule.increase then Min(v + t, 1.0) else Max(v - t, 0.0)
  }

  /** `n * d`, by repeated addition. */
  function Times(n: nat, d: real): (r: real)
    ensures d >= 0.0 ==> r >= 0.0
  {
    if n == 0 then 0.0 else Times(n - 1, d) + d
  }

  /** The repeated sum is the product `n * d`. */
  lemma {:induction false} TimesIsProduct(n: nat, d: real)
    ensures Times(n, d) == (n as real) * d
  {
    if n > 0 {
      TimesIsProduct(n - 1, d);
    }
  }

  /** On a value in [0,1] with a non-negative delta, `n` steps move the value
      by `n*delta` towards 1 (increase) or 0 (decrease) and stop there. */
  lemma {:induction false} StepNClosedForm(rule: StepRule, v: real, n: nat)
    requires 0.0 <= v <= 1.0 && rule.delta >= 0.0
    ensures StepN(rule, v, n) == Travel(rule, v, Times(n, rule.delta))
  {
    if n > 0 {
      StepNClosedForm(rule, v, n - 1);
      StepAfter(rule, v, Times(n - 1, rule.delta));
    }
  }

  /** One more step after a total movement of `t`. */
  lemma StepAfter(rule: StepRule, v: real, t: real)
    requires 0.0 <= v <= 1.0 && rule.delta >= 0.0 && t >= 0.0
    ensures Step(rule, Travel(rule, v, t)) == Travel(rule, v, t + rule.delta)
  {
  }

  /** The engine's clamped step always lands in [0,1]. */
  lemma ClampedStepInUnit(inc: bool, delta: real, v: real)
    ensures 0.0 <= Step(Clamped(inc, delta), v) <= 1.0
  {
  }

  /** On values already in [0,1] with a non-negative delta, the page's older
      brush step and the engine's clamped step agree. */
  lemma StepRulesAgree(inc: bool, delta: real, v: real)
    requires 0.0 <= v <= 1.0 && delta >= 0.0
    ensures Step(Clamped(inc, delta), v) == Step(OneSided(inc, delta), v)
  {
  }

  /** Steps keep a value inside [0,1]; the clamped rule needs nothing more,
      the one-sided rule needs a non-negative delta. */
  lemma {:induction false} StepNInUnit(rule: StepRule, v: real, n: nat)
    requires 0.0 <= v <= 1.0
    requires rule.Clamped? || rule.delta >= 0.0
    ensures 0.0 <= StepN(rule, v, n) <= 1.0
  {
    if n > 0 {
      StepNInUnit(rule, v, n - 1);
    }
  }

  // ---------------------------------------------------------------------
  // The effect of a stroke on one index

  lemma {:induction false} PaintRowAt(s: Stroke, f: seq<real>, i: int, j: int, k: int)
    requires 0 <= k < |f|
    ensures PaintRow(s, f, i, j)[k] ==
      if Blocked(s.odds, s.thresh, k) then f[k] else StepN(s.rule, f[k], RowHits(s, k, i, j))
    decreases j - (s.col - s.radius)
  {
    if j > s.col - s.radius {
      PaintRowAt(s, f, i, j - 1, k);
    }
  }

  lemma {:induction false} PaintRowsAt(s: Stroke, f: seq<real>, i: int, k: int)
    requires 0 <= k < |f|
    ensures PaintRows(s, f, i)[k] ==
      if Blocked(s.odds, s.thresh, k) then f[k] else StepN(s.rule, f[k], RowsHits(s, k, i))
    decreases i - (s.row - s.radius)
  {
    if i > s.row - s.radius {
      var g := PaintRows(s, f, i - 1);
      PaintRowsAt(s, f, i - 1, k);
      PaintRowAt(s, g, i - 1, s.col + s.radius, k);
      StepNAdd(s.rule, f[k], RowsHits(s, k, i - 1), RowHits(s, k, i - 1, s.col + s.radius));
    }
  }

  /** A stroke keeps the field's length; a blocked index keeps its value,
      and every other index takes one step per footprint cell landing on it,
      in scan order. */
  lemma PaintAt(s: Stroke, f: seq<real>, k: int)
    requires 0 <= k < |f|
    ensures |Paint(s, f)| == |f|
    ensures Paint(s, f)[k] ==
      if Blocked(s.odds, s.thresh, k) then f[k] else StepN(s.rule, f[k], Hits(s, k))
  {
    PaintRowsAt(s, f, s.row + s.radius, k);
  }

  // ---------------------------------------------------------------------
  // Where a stroke lands

  lemma {:induction false} RowHitsWitness(s: Stroke, k: int, i: int, j: int)
    requires RowHits(s, k, i, j) > 0
    requires s.row - s.radius <= i < s.row + s.radius
    requires j <= s.col + s.radius
    ensures exists j' :: InFootprint(s, i, j') && CellIdx(s.width, j', i) == k
    decreases j - (s.col - s.radius)
  {
    if InDisk(s, i, j - 1) && CellIdx(s.width, j - 1, i) == k {
      assert InFootprint(s, i, j - 1);
    } else {
      RowHitsWitness(s, k, i, j - 1);
    }
  }

  lemma {:induction false} RowsHitsWitness(s: Stroke, k: int, i: int)
    requires RowsHits(s, k, i) > 0
    requires i <= s.row + s.radius
    ensures exists i', j' :: InFootprint(s, i', j') && CellIdx(s.width, j', i') == k
    decreases i - (s.row - s.radius)
  {
    if RowHits(s, k, i - 1, s.col + s.radius) > 0 {
      RowHitsWitness(s, k, i - 1, s.col + s.radius);
    } else {
      RowsHitsWitness(s, k, i - 1);
    }
  }

  lemma {:induction false} RowHitsCover(s: Stroke, k: int, i: int, j: int, j': int)
    requires InDisk(s, i, j') && CellIdx(s.width, j', i) == k
    requires s.col - s.radius <= j' < j
    ensures RowHits(s, k, i, j) >= 1
    decreases j - (s.col - s.radius)
  {
    if j' < j - 1 {
      RowHitsCover(s, k, i, j - 1, j');
    }
  }

  lemma {:induction false} RowsHitsCover(s: Stroke, k: int, i: int, i': int, j': int)
    requires InFootprint(s, i', j') && CellIdx(s.width, j', i') == k
    requires i' < i
    ensures RowsHits(s, k, i) >= 1
    decreases i - (s.row - s.radius)
  {
    if i' < i - 1 {
      RowsHitsCover(s, k, i - 1, i', j');
    } else {
      RowHitsCover(s, k, i', s.col + s.radius, j');
    }
  }

  /** An index is hit by a stroke exactly when some footprint cell has that
      linear index. */
  lemma HitsIffFootprint(s: Stroke, k: int)
    ensures Hits(s, k) > 0 <==> exists i, j :: InFootprint(s, i, j) && CellIdx(s.width, j, i) == k
  {
    if Hits(s, k) > 0 {
      RowsHitsWitness(s, k, s.row + s.radius);
    }
    if exists i, j :: InFootprint(s, i, j) && CellIdx(s.width, j, i) == k {
      var i, j :| InFootprint(s, i, j) && CellIdx(s.width, j, i) == k;
      RowsHitsCover(s, k, s.row + s.radius, i, j);
    }
  }

  /** The frame of a stroke: an index that is blocked, or that no footprint
      cell lands on, keeps its value. */
  lemma PaintFrame(s: Stroke, f: seq<real>, k: int)
    requires 0 <= k < |f|
    requires Blocked(s.odds, s.thresh, k) ||
             forall i, j :: InFootprint(s, i, j) ==> CellIdx(s.width, j, i) != k
    ensures Paint(s, f)[k] == f[k]
  {
    PaintAt(s, f, k);
    HitsIffFootprint(s, k);
  }

  /** Every index that changes lies in the field, is not blocked, and is the
      linear index of a footprint cell. */
  lemma PaintChangesOnlyFootprint(s: Stroke, f: seq<real>, k: int)
    requires 0 <= k < |f|
    requires Paint(s, f)[k] != f[k]
    ensures !Blocked(s.odds, s.thresh, k)
    ensures exists i, j :: InFootprint(s, i, j) && CellIdx(s.width, j, i) == k
  {
    PaintAt(s, f, k);
    HitsIffFootprint(s, k);
  }

  // ---------------------------------------------------------------------
  // Whole-field consequences

  /** For a field with values in [0,1] and a non-negative delta, the value of
      every unblocked index moves by `delta` per hit towards the brush's
      direction and saturates at 1 or 0. */
  lemma PaintClosedForm(s: Stroke, f: seq<real>, k: int)
    requires AllInUnit(f) && s.rule.delta >= 0.0
    requires 0 <= k < |f|
    ensures |Paint(s, f)| == |f|
    ensures Paint(s, f)[k] ==
      if Blocked(s.odds, s.thresh, k) then f[k]
      else Travel(s.rule, f[k], Times(Hits(s, k), s.rule.delta))
  {
    PaintAt(s, f, k);
    StepNClosedForm(s.rule, f[k], Hits(s, k));
  }

  /** Hit counts depend on the geometry of a stroke, not on its rule. */
  lemma {:induction false} RowHitsIgnoreRule(s: Stroke, rule: StepRule, k: int, i: int, j: int)
    ensures RowHits(s, k, i, j) == RowHits(s.(rule := rule), k, i, j)
    decreases j - (s.col - s.radius)
  {
    if j > s.col - s.radius {
      RowHitsIgnoreRule(s, rule, k, i, j - 1);
    }
  }

  lemma {:induction false} RowsHitsIgnoreRule(s: Stroke, rule: StepRule, k: int, i: int)
    ensures RowsHits(s, k, i) == RowsHits(s.(rule := rule), k, i)
    decreases i - (s.row - s.radius)
  {
    if i > s.row - s.radius {
      RowsHitsIgnoreRule(s, rule, k, i - 1);
      RowHitsIgnoreRule(s, rule, k, i - 1, s.col + s.radius);
    }
  }

  /** On a field of values in [0,1] with a non-negative delta, the page's
      one-sided brush and the engine's clamped brush paint the same field. */
  lemma PaintRulesAgree(s: Stroke, f: seq<real>, increase: bool, delta: real)
    requires AllInUnit(f) && delta >= 0.0
    ensures Paint(s.(rule := Clamped(increase, delta)), f) == Paint(s.(rule := OneSided(increase, delta)), f)
  {
    var c, o := s.(rule := Clamped(increase, delta)), s.(rule := OneSided(increase, delta));
    forall k | 0 <= k < |f|
      ensures Paint(c, f)[k] == Paint(o, f)[k]
    {
      PaintClosedForm(c, f, k);
      PaintClosedForm(o, f, k);
      RowsHitsIgnoreRule(c, o.rule, k, c.row + c.radius);
    }
  }

  /** "All values in [0,1]" is kept by every stroke of either brush (the older
      brush needs a non-negative delta). */
  lemma PaintKeepsUnit(s: Stroke, f: seq<real>)
    requires AllInUnit(f)
    requires s.rule.Clamped? || s.rule.delta >= 0.0
    ensures |Paint(s, f)| == |f| && AllInUnit(Paint(s, f))
  {
    forall k | 0 <= k < |f|
      ensures 0.0 <= Paint(s, f)[k] <= 1.0
    {
      PaintAt(s, f, k);
      StepNInUnit(s.rule, f[k], Hits(s, k));
    }
  }

  /** The brush is monotone: increasing never lowers a value and decreasing
      never raises one. */
  lemma PaintMonotone(s: Stroke, f: seq<real>)
    requires AllInUnit(f) && s.rule.delta >= 0.0
    ensures |Paint(s, f)| == |f|
    ensures forall k :: 0 <= k < |f| ==>
      if s.rule.increase then f[k] <= Paint(s, f)[k] else Paint(s, f)[k] <= f[k]
  {
    forall k | 0 <= k < |f|
      ensures if s.rule.increase then f[k] <= Paint(s, f)[k] else Paint(s, f)[k] <= f[k]
    {
      PaintClosedForm(s, f, k);
    }
  }

  /** Repeated strokes saturate: once every unblocked value is at the end of
      the brush's range (1 when increasing, 0 when decreasing), a further
      stroke changes nothing. */
  lemma PaintSaturated(s: Stroke, f: seq<real>)
    requires AllInUnit(f) && s.rule.delta >= 0.0
    requires forall k :: 0 <= k < |f| && !Blocked(s.odds, s.thresh, k) ==>
      f[k] == if s.rule.increase then 1.0 else 0.0
    ensures Paint(s, f) == f
  {
    forall k | 0 <= k < |f|
      ensures Paint(s, f)[k] == f[k]
    {
      PaintClosedForm(s, f, k);
    }
  }

  // ---------------------------------------------------------------------
  // Two concrete strokes

  /** One footprint cell's contribution to `Hits`. */
  function HitAt(s: Stroke, k: int, i: int, j: int): nat
  {
    if InDisk(s, i, j) && CellIdx(s.width, j, i) == k then 1 else 0
  }

  /** A radius-1 stroke scans the four cells of its 2x2 square. */
  lemma HitsRadiusOne(s: Stroke, k: int)
    requires s.radius == 1
    ensures Hits(s, k) == HitAt(s, k, s.row - 1, s.col - 1) + HitAt(s, k, s.row - 1, s.col)
                        + HitAt(s, k, s.row, s.col - 1) + HitAt(s, k, s.row, s.col)
  {
    var r, c := s.row, s.col;
    assert RowsHits(s, k, r - 1) == 0;
    assert RowHits(s, k, r - 1, c + 1) == HitAt(s, k, r - 1, c - 1) + HitAt(s, k, r - 1, c) by {
      assert RowHits(s, k, r - 1, c - 1) == 0;
    }
    assert RowHits(s, k, r, c + 1) == HitAt(s, k, r, c - 1) + HitAt(s, k, r, c) by {
      assert RowHits(s, k, r, c - 1) == 0;
    }
    assert RowsHits(s, k, r + 1) == RowsHits(s, k, r) + RowHits(s, k, r, c + 1);
  }

  /** A radius-1 decrease by 0.1 centred on (2,2) of an unblocked 5x5 grid of
      ones lowers only (1,2), (2,1) and (2,2): the scan is half-open, so (3,2)
      and (2,3) are never visited, and (1,1) fails the disk test. */
  lemma FiveByFiveStroke()
    ensures var s := Stroke(2, 2, 1, 5, seq(25, _ => 0.0), 0.5, Clamped(false, 0.1));
            var g := Paint(s, seq(25, _ => 1.0));
            |g| == 25 && g[7] == 0.9 && g[11] == 0.9 && g[12] == 0.9 &&
            g[6] == 1.0 && g[13] == 1.0 && g[17] == 1.0
    ensures var s := Stroke(2, 2, 1, 5, seq(25, _ => 0.0), 0.5, Clamped(false, 0.1));
            var g := Paint(s, seq(25, _ => 1.0));
            forall k :: 0 <= k < 25 && k != 7 && k != 11 && k != 12 ==> g[k] == 1.0
  {
    var s := Stroke(2, 2, 1, 5, seq(25, _ => 0.0), 0.5, Clamped(false, 0.1));
    var f := seq(25, _ => 1.0);
    PaintKeepsUnit(s, f);
    forall k | 0 <= k < 25
      ensures Paint(s, f)[k] == if k == 7 || k == 11 || k == 12 then 0.9 else 1.0
    {
      HitsRadiusOne(s, k);
      PaintAt(s, f, k);
    }
  }

  /** On a grid one column wide, the cells (row-1, col) and (row, col-1) of a
      radius-1 stroke share one linear index, so one call steps that index
      twice. */
  lemma NarrowGridDoubleHit(s: Stroke, f: seq<real>)
    requires s.width == 1 && s.radius == 1
    requires 0 <= s.row + s.col - 1 < |f| && !Blocked(s.odds, s.thresh, s.row + s.col - 1)
    ensures Hits(s, s.row + s.col - 1) == 2
    ensures Paint(s, f)[s.row + s.col - 1] == Step(s.rule, Step(s.rule, f[s.row + s.col - 1]))
  {
    var k := s.row + s.col - 1;
    assert HitAt(s, k, s.row - 1, s.col - 1) == 0 && HitAt(s, k, s.row - 1, s.col) == 1;
    assert HitAt(s, k, s.row, s.col - 1) == 1 && HitAt(s, k, s.row, s.col) == 0;
    HitsRadiusOne(s, k);
    PaintAt(s, f, k);
    assert StepN(s.rule, f[k], 1) == Step(s.rule, f[k]);
  }
}

=== FILE: descent.dfy ===
/**
  The neighbour window and the greedy descent of the potential-field engine,
  as predicates over a read-only snapshot of the field.
 */
module Descent {
  import opened Grid
  import opened Brush

  /** What a descent query reads: grid width, occupancy, threshold and the
      field values. The field does not change during a query. */
  datatype Terrain = Terrain(width: int, odds: seq<real>, thresh: real, values: seq<real>)

  /** The only bounds check the engine makes: the linear index lies in the
      field. */
  predicate InField(t: Terrain, c: Cell)
  {
    0 <= Idx(t.width, c) < |t.values|
  }

  function Value(t: Terrain, c: Cell): real
    requires InField(t, c)
  {
    t.values[Idx(t.width, c)]
  }

  /** The window `neighbors8` scans around `c`: rows `c.row-1 .. c.row+2` and
      columns `c.col-1 .. c.col+2`, both inclusive; `c` itself is part of it. */
  predicate InWindow(c: Cell, d: Cell)
  {
    c.row - 1 <= d.row <= c.row + 2 && c.col - 1 <= d.col <= c.col + 2
  }

  /** Row-major scan order. */
  predicate Before(a: Cell, b: Cell)
  {
    a.row < b.row || (a.row == b.row && a.col < b.col)
  }

  predicate ScanOrdered(s: seq<Cell>)
  {
    forall a, b :: 0 <= a < b < |s| ==> Before(s[a], s[b])
  }

  /** A cell the descent may move to from `c`. */
  predicate Candidate(t: Terrain, c: Cell, d: Cell)
  {
    InWindow(c, d) && InField(t, d) && !Blocked(t.odds, t.thresh, Idx(t.width, d))
  }

  /** One move of the descent: `d` is a candidate strictly lower than `c`,
      no candidate is lower than `d`, and every candidate scanned before `d`
      is strictly higher (ties go to the first minimiser in scan order). */
  ghost predicate IsDescentStep(t: Terrain, c: Cell, d: Cell)
  {
    && InField(t, c)
    && Candidate(t, c, d)
    && Value(t, d) < Value(t, c)
    && (forall e :: Candidate(t, c, e) ==> Value(t, d) <= Value(t, e))
    && (forall e :: Candidate(t, c, e) && Before(e, d) ==> Value(t, d) < Value(t, e))
  }

  /** Where the descent stops: no candidate is strictly lower. A cell outside
      the field has no value (the engine reads `undefined` and every
      difference is NaN), so the descent stops there too. */
  ghost predicate IsStuck(t: Terrain, c: Cell)
  {
    !InField(t, c) || forall e :: Candidate(t, c, e) ==> Value(t, c) <= Value(t, e)
  }

  /** A complete descent from `start`: every move is a descent step and the
      last cell is stuck. */
  ghost predicate IsDescentPath(t: Terrain, start: Cell, path: seq<Cell>)
  {
    && |path| >= 1
    && path[0] == start
    && (forall a :: 0 <= a < |path| - 1 ==> IsDescentStep(t, path[a], path[a + 1]))
    && IsStuck(t, path[|path| - 1])
  }

  /** The field indices whose value is below `v`. */
  ghost function Lower(values: seq<real>, v: real): set<int>
  {
    set k | 0 <= k < |values| && values[k] < v
  }

  /** The termination measure of the descent: how many cells lie below the
      current one. */
  ghost function Level(t: Terrain, c: Cell): nat
  {
    if InField(t, c) then |Lower(t.values, Value(t, c))| else 0
  }

  // ---------------------------------------------------------------------

  /** A move strictly lowers the measure. */
  lemma LevelDecreases(t: Terrain, c: Cell, d: Cell)
    requires InField(t, c) && InField(t, d) && Value(t, d) < Value(t, c)
    ensures Level(t, d) < Level(t, c)
  {
    var below, above := Lower(t.values, Value(t, d)), Lower(t.values, Value(t, c));
    var k := Idx(t.width, d);
    assert below <= above;
    assert k in above - below;
    assert above == below + (above - below);
    assert |above| == |below| + |above - below|;
  }

  /** The scan order is a strict total order on cells. */
  lemma BeforeTotal(a: Cell, b: Cell)
    ensures a == b || Before(a, b) || Before(b, a)
    ensures !(Before(a, b) && Before(b, a))
  {
  }

  /** A descent step out of a cell is unique, and a stuck cell has none. */
  lemma DescentStepDeterministic(t: Terrain, c: Cell, d: Cell, d': Cell)
    requires IsDescentStep(t, c, d) && IsDescentStep(t, c, d')
    ensures d == d'
  {
    assert Candidate(t, c, d) && Candidate(t, c, d');
    BeforeTotal(d, d');
  }

  lemma StuckHasNoStep(t: Terrain, c: Cell, d: Cell)
    requires IsStuck(t, c)
    ensures !IsDescentStep(t, c, d)
  {
  }

  /** A start with no strictly lower candidate, or outside the field, gives
      the one-cell path `[start]`. */
  lemma DescentFromStuckStart(t: Terrain, start: Cell, p: seq<Cell>)
    requires IsDescentPath(t, start, p) && IsStuck(t, start)
    ensures p == [start]
  {
    if |p| > 1 {
      StuckHasNoStep(t, start, p[1]);
    }
  }

  /** At the left edge of an inner row, the window cell one column further
      left passes the field check. It is the last cell of the row above. */
  lemma WindowWrapsAtLeftEdge(t: Terrain, j: int)
    requires t.width >= 1 && 1 <= j && (j + 1) * t.width <= |t.values|
    ensures InWindow(Cell(j, 0), Cell(j, -1)) && InField(t, Cell(j, -1))
    ensures Idx(t.width, Cell(j, -1)) == Idx(t.width, Cell(j - 1, t.width - 1))
  {
    ColumnWrap(t.width, j);
    MulAtLeast(j, t.width);
    assert (j + 1) * t.width == j * t.width + t.width;
  }

  /** The descent from a start cell is determined: two complete descents
      from the same start are the same path. */
  lemma {:induction false} DescentPathUnique(t: Terrain, start: Cell, p: seq<Cell>, q: seq<Cell>)
    requires IsDescentPath(t, start, p) && IsDescentPath(t, start, q)
    ensures p == q
  {
    var n := 0;
    while n < |p| - 1 && n < |q| - 1
      invariant 0 <= n < |p| && n < |q|
      invariant p[..n + 1] == q[..n + 1]
    {
      DescentStepDeterministic(t, p[n], p[n + 1], q[n + 1]);
      assert p[..n + 2] == p[..n + 1] + [p[n + 1]];
      assert q[..n + 2] == q[..n + 1] + [q[n + 1]];
      n := n + 1;
    }
    assert p[n] == q[n] by { assert p[..n + 1][n] == q[..n + 1][n]; }
    if n < |p| - 1 {
      StuckHasNoStep(t, q[n], p[n + 1]);
      assert false;
    } else if n < |q| - 1 {
      StuckHasNoStep(t, p[n], q[n + 1]);
      assert false;
    } else {
      assert p == p[..n + 1] && q == q[..n + 1];
    }
  }

  /** Along a descent path the field value strictly decreases; a path of two
      or more cells lies wholly in the field. */
  lemma {:induction false} DescentPathDecreases(t: Terrain, start: Cell, path: seq<Cell>, a: int, b: int)
    requires IsDescentPath(t, start, path)
    requires 0 <= a < b < |path|
    ensures InField(t, path[a]) && InField(t, path[b])
    ensures Value(t, path[b]) < Value(t, path[a])
    decreases b - a
  {
    assert IsDescentStep(t, path[b - 1], path[b]);
    if a < b - 1 {
      DescentPathDecreases(t, start, path, a, b - 1);
    }
  }

  /** A sequence of distinct numbers in `[0, n)` has at most `n` elements. */
  lemma {:induction false} PigeonHole(xs: seq<int>, n: nat)
    requires forall a :: 0 <= a < |xs| ==> 0 <= xs[a] < n
    requires forall a, b :: 0 <= a < b < |xs| ==> xs[a] != xs[b]
    ensures |xs| <= n
    decreases |xs|
  {
    if |xs| > 0 {
      var x := xs[|xs| - 1];
      var ys := seq(|xs| - 1, a requires 0 <= a < |xs| - 1 => if xs[a] == n - 1 then x else xs[a]);
      forall a | 0 <= a < |ys|
        ensures 0 <= ys[a] < n - 1
      {
        assert xs[a] != x;
      }
      forall a, b | 0 <= a < b < |ys|
        ensures ys[a] != ys[b]
      {
        assert xs[a] != xs[b] && xs[a] != x && xs[b] != x;
      }
      PigeonHole(ys, n - 1);
    }
  }

  /** The cells of a descent path have pairwise distinct indices, so a
      descent that starts in the field visits at most as many cells as the
      field has. */
  lemma DescentPathShort(t: Terrain, start: Cell, path: seq<Cell>)
    requires IsDescentPath(t, start, path)
    ensures forall a, b :: 0 <= a < b < |path| ==> Idx(t.width, path[a]) != Idx(t.width, path[b])
    ensures InField(t, start) ==> |path| <= |t.values|
  {
    forall a, b | 0 <= a < b < |path|
      ensures Idx(t.width, path[a]) != Idx(t.width, path[b])
    {
      DescentPathDecreases(t, start, path, a, b);
    }
    if InField(t, start) {
      var xs := seq(|path|, a requires 0 <= a < |path| => Idx(t.width, path[a]));
      forall a | 0 <= a < |xs|
        ensures 0 <= xs[a] < |t.values|
      {
        if a > 0 {
          DescentPathDecreases(t, start, path, 0, a);
        }
      }
      PigeonHole(xs, |t.values|);
    }
  }

  /** After the radius-1 decrease of `Brush.FiveByFiveStroke`, the centre
      (2,2) is one of the three lowest cells and no candidate of its window is
      lower, so a descent from (2,2) stays where it is. */
  lemma FiveByFiveDescentStops(p: seq<Cell>)
    ensures var t := Terrain(5, seq(25, _ => 0.0), 0.5,
                             Paint(Stroke(2, 2, 1, 5, seq(25, _ => 0.0), 0.5, Clamped(false, 0.1)), seq(25, _ => 1.0)));
            IsStuck(t, Cell(2, 2)) && (IsDescentPath(t, Cell(2, 2), p) ==> p == [Cell(2, 2)])
  {
    var t := Terrain(5, seq(25, _ => 0.0), 0.5,
                     Paint(Stroke(2, 2, 1, 5, seq(25, _ => 0.0), 0.5, Clamped(false, 0.1)), seq(25, _ => 1.0)));
    FiveByFiveStroke();
    forall e | Candidate(t, Cell(2, 2), e)
      ensures Value(t, Cell(2, 2)) <= Value(t, e)
    {
      assert 0 <= Idx(5, e) < 25;
    }
    if IsDescentPath(t, Cell(2, 2), p) {
      DescentFromStuckStart(t, Cell(2, 2), p);
    }
  }
}

=== FILE: field.dfy ===
/**
  The potential-field engine (`PotentialField`): occupancy, a mutable field
  of values in [0,1], brush settings, the brush edit, the neighbour window and
  the greedy descent.
 */
module Engine {
  import opened Grid
  import opened Brush
  import opened Descent

  /** The largest length `Array(n)` accepts; any other `n` throws a
      RangeError. */
  const MaxArrayLength: int := 0xFFFF_FFFF

  class PotentialField {
    const collisionThresh: real
    var increase: bool
    var brushRadius: int
    var brushDelta: real
    var cellOdds: seq<real>
    var field: array<real>
    /** The dimensions held by the engine's grid canvas. */
    var width: int
    var height: int

    /** The snapshot a descent query reads. */
    function View(): Terrain
      reads this, field
    {
      Terrain(width, cellOdds, collisionThresh, field[..])
    }

    /** The stroke a brush call at (row, col) applies with the current
        settings. */
    function StrokeAt(row: int, col: int): Stroke
      reads this
    {
      Stroke(row, col, brushRadius, width, cellOdds, collisionThresh, Clamped(increase, brushDelta))
    }

    constructor (collisionThresh: real)
      ensures this.collisionThresh == collisionThresh
      ensures !increase && brushRadius == 3 && brushDelta == 0.01
      ensures cellOdds == [] && field.Length == 0
      ensures width == 0 && height == 0
    {
      this.collisionThresh := collisionThresh;
      increase := false;
      brushRadius := 3;
      brushDelta := 0.01;
      cellOdds := [];
      field := new real[0];
      width, height := 0, 0;
    }

    /** `setDraw`: choose the brush direction. */
    method SetDraw(increase: bool)
      modifies this`increase
      ensures this.increase == increase
    {
      this.increase := increase;
    }

    /** `setBrush`: choose the brush radius and per-application delta. */
    method SetBrush(radius: int, delta: real)
      modifies this`brushRadius, this`brushDelta
      ensures brushRadius == radius && brushDelta == delta
    {
      brushRadius := radius;
      brushDelta := delta;
    }

    /** `reset`: a fresh field of `width*height` ones. `Array(n)` throws a
        RangeError for a negative or oversized `n`; `ok` is false then and the
        old field stays. */
    method Reset() returns (ok: bool)
      modifies this`field
      ensures ok <==> 0 <= width * height <= MaxArrayLength
      ensures ok ==> fresh(field) && field[..] == seq(width * height, _ => 1.0)
      ensures !ok ==> field == old(field)
    {
      var n := width * height;
      if n < 0 || n > MaxArrayLength {
        return false;
      }
      field := new real[n](_ => 1.0);
      ok := true;
    }

    /** `setCells`: install an occupancy array and dimensions, then reset the
        field. The occupancy and dimensions are stored even when the reset
        throws. */
    method SetCells(cells: seq<real>, width: int, height: int) returns (ok: bool)
      modifies this`cellOdds, this`width, this`height, this`field
      ensures cellOdds == cells && this.width == width && this.height == height
      ensures ok <==> 0 <= width * height <= MaxArrayLength
      ensures ok ==> fresh(field) && field[..] == seq(width * height, _ => 1.0)
      ensures !ok ==> field == old(field)
    {
      cellOdds := cells;
      this.width, this.height := width, height;
      ok := Reset();
    }

    /** `changeFieldCell`: one brush call centred on (row, col). The field
        becomes the stroke's fold over the scan; its length, its blocked cells
        and the "all values in [0,1]" invariant are kept. */
    method ChangeFieldCell(row: int, col: int)
      modifies field
      ensures field[..] == Paint(StrokeAt(row, col), old(field[..]))
      ensures forall k :: 0 <= k < field.Length && Blocked(cellOdds, collisionThresh, k) ==>
        field[k] == old(field[k])
      ensures AllInUnit(old(field[..])) ==> AllInUnit(field[..])
    {
      ghost var s := StrokeAt(row, col);
      ghost var f0 := field[..];
      var i := row - brushRadius;
      while i < row + brushRadius
        invariant row - brushRadius <= i
        invariant i <= row + brushRadius || i == row - brushRadius
        invariant field[..] == PaintRows(s, f0, i)
      {
        var j := col - brushRadius;
        while j < col + brushRadius
          invariant col - brushRadius <= j
          invariant j <= col + brushRadius || j == col - brushRadius
          invariant field[..] == PaintRow(s, PaintRows(s, f0, i), i, j)
        {
          // Only (i, j) within distance r of the centre are painted.
          if (i - row) * (i - row) + (j - col) * (j - col) <= brushRadius * brushRadius {
            var idx := CellIdx(width, j, i);
            // The index must lie in the field and its occupancy must not exceed the threshold.
            if 0 <= idx < field.Length && !(idx < |cellOdds| && cellOdds[idx] > collisionThresh) {
              var dir: real := if increase then 1.0 else -1.0;
              assert dir * brushDelta == if increase then brushDelta else -brushDelta;
              field[idx] := Min(Max(field[idx] + dir * brushDelta, 0.0), 1.0);
            }
          }
          j := j + 1;
        }
        i := i + 1;
      }
      forall k | 0 <= k < field.Length && Blocked(cellOdds, collisionThresh, k)
        ensures field[k] == f0[k]
      {
        PaintAt(s, f0, k);
      }
      if AllInUnit(f0) {
        PaintKeepsUnit(s, f0);
      }
    }

    /** `neighbors8`: the cells of the window `row-1 .. row+2` x
        `col-1 .. col+2` whose linear index lies in the field, in row-major
        order. Cells one column past an edge wrap into the next row. */
    method Neighbors8(row: int, col: int) returns (nbrs: seq<Cell>)
      ensures forall d :: d in nbrs <==> InWindow(Cell(row, col), d) && InField(View(), d)
      ensures ScanOrdered(nbrs)
      ensures |nbrs| <= 16
    {
      nbrs := [];
      var i := row - 1;
      while i <= row + 2
        invariant row - 1 <= i <= row + 3
        invariant forall d :: d in nbrs <==> InWindow(Cell(row, col), d) && InField(View(), d) && d.row < i
        invariant ScanOrdered(nbrs)
        invariant |nbrs| <= 4 * (i - (row - 1))
      {
        var j := col - 1;
        while j <= col + 2
          invariant col - 1 <= j <= col + 3
          invariant forall d :: d in nbrs <==>
            InWindow(Cell(row, col), d) && InField(View(), d) && (d.row < i || (d.row == i && d.col < j))
          invariant ScanOrdered(nbrs)
          invariant |nbrs| <= 4 * (i - (row - 1)) + (j - (col - 1))
        {
          var idx := CellIdx(width, j, i);
          if 0 <= idx < field.Length {
            nbrs := nbrs + [Cell(i, j)];
          }
          j := j + 1;
        }
        i := i + 1;
      }
    }

    /** `gradientDescent`: from `start`, repeatedly move to the first lowest
        unblocked neighbour while it is strictly lower than the current cell.
        The result is the complete descent from `start`; its cells have
        distinct indices, so a start in the field gives at most
        `field.Length` cells. */
    method GradientDescent(start: Cell) returns (path: seq<Cell>)
      ensures IsDescentPath(View(), start, path)
      ensures forall a, b :: 0 <= a < b < |path| ==> Idx(width, path[a]) != Idx(width, path[b])
      ensures InField(View(), start) ==> |path| <= field.Length
    {
      ghost var t := View();
      var done := false;
      var current := start;
      var currIdx := CellIdx(width, start.col, start.row);
      path := [start];
      while !done
        invariant |path| >= 1 && path[0] == start && path[|path| - 1] == current
        invariant currIdx == Idx(width, current)
        invariant forall a :: 0 <= a < |path| - 1 ==> IsDescentStep(t, path[a], path[a + 1])
        invariant done ==> IsStuck(t, current)
        decreases !done, Level(t, current)
      {
        var nbrs := Neighbors8(current.row, current.col);
        // Track the smallest negative difference seen so far and where it was.
        // From a cell outside the field every difference is NaN, so no move
        // is chosen.
        var maxDelta: real := 0.0;
        var maxIdx := 0;
        if 0 <= currIdx < field.Length {
          var n := 0;
          while n < |nbrs|
            invariant 0 <= n <= |nbrs|
            invariant maxDelta <= 0.0
            invariant maxDelta < 0.0 ==>
              maxIdx < n && Candidate(t, current, nbrs[maxIdx]) &&
              maxDelta == Value(t, nbrs[maxIdx]) - Value(t, current)
            invariant forall m :: 0 <= m < n && Candidate(t, current, nbrs[m]) ==>
              maxDelta <= Value(t, nbrs[m]) - Value(t, current)
            invariant maxDelta < 0.0 ==> forall m :: 0 <= m < maxIdx && Candidate(t, current, nbrs[m]) ==>
              maxDelta < Value(t, nbrs[m]) - Value(t, current)
          {
            assert nbrs[n] in nbrs;
            var idx := CellIdx(width, nbrs[n].col, nbrs[n].row);
            if !(idx < |cellOdds| && cellOdds[idx] > collisionThresh) {
              var grad := field[idx] - field[currIdx];
              if grad < maxDelta {
                maxDelta := grad;
                maxIdx := n;
              }
            }
            n := n + 1;
          }
        }
        // A strictly lower candidate was found: step to it.
        if maxDelta < 0.0 {
          var next := nbrs[maxIdx];
          forall e | Candidate(t, current, e)
            ensures Value(t, next) <= Value(t, e)
            ensures Before(e, next) ==> Value(t, next) < Value(t, e)
          {
            assert e in nbrs;
            var m :| 0 <= m < |nbrs| && nbrs[m] == e;
            BeforeTotal(e, next);
          }
          assert IsDescentStep(t, current, next);
          LevelDecreases(t, current, next);
          current := next;
          currIdx := CellIdx(width, current.col, current.row);
          path := path + [current];
        } else {
          done := true;
        }
      }
      DescentPathShort(t, start, path);
    }
  }
}

=== FILE: grid.dfy ===
/**
  Grid addressing: the row-major linear index shared by the occupancy map,
  the potential field and every canvas of the demo.
 */
module Grid {

  /** A grid cell addressed as (row, column); both may be negative. */
  datatype Cell = Cell(row: int, col: int)

  /** `getCellIdx(i, j)`: column `i`, row `j`, linear index `i + j * width`.
      No bounds are checked here. */
  function CellIdx(width: int, i: int, j: int): int
  {
    i + j * width
  }

  /** The linear index of a cell. */
  function Idx(width: int, c: Cell): int
  {
    CellIdx(width, c.col, c.row)
  }

  /** Within the columns of the grid the index is decoded by division:
      the column is the remainder and the row the quotient. */
  lemma CellIdxDecode(width: int, i: int, j: int)
    requires 0 <= i < width
    ensures CellIdx(width, i, j) % width == i
    ensures CellIdx(width, i, j) / width == j
  {
    var k := CellIdx(width, i, j);
    assert k == j * width + i;
    LemmaDivModUnique(k, width, j, i);
  }

  /** Euclidean division is determined by its quotient and remainder. */
  lemma LemmaDivModUnique(k: int, d: int, q: int, r: int)
    requires 0 <= r < d
    requires k == q * d + r
    ensures k / d == q && k % d == r
  {
    var q', r' := k / d, k % d;
    assert k == q' * d + r';
    if q > q' {
      assert (q - q') * d == q * d - q' * d;
      MulAtLeast(q - q', d);
    } else if q < q' {
      assert (q' - q) * d == q' * d - q * d;
      MulAtLeast(q' - q, d);
    }
  }

  /** A positive multiple of a natural number is at least that number. */
  lemma {:induction false} MulAtLeast(a: int, d: nat)
    requires a >= 1
    ensures a * d >= d
  {
    if a > 1 {
      MulAtLeast(a - 1, d);
      assert a * d == (a - 1) * d + d;
    }
  }

  /** Two cells whose columns lie inside the grid share an index only when
      they are the same cell. */
  lemma CellIdxInjective(width: int, i: int, j: int, i': int, j': int)
    requires 0 <= i < width && 0 <= i' < width
    requires CellIdx(width, i, j) == CellIdx(width, i', j')
    ensures i == i' && j == j'
  {
    CellIdxDecode(width, i, j);
    CellIdxDecode(width, i', j');
  }

  /** With the column inside the grid, the index is in `[0, width*height)`
      exactly when the row is in `[0, height)`. */
  lemma CellIdxInRange(width: int, height: int, i: int, j: int)
    requires 0 <= i < width
    ensures 0 <= CellIdx(width, i, j) < width * height <==> 0 <= j < height
  {
    var k := CellIdx(width, i, j);
    if j >= 0 {
      assert j * width >= 0 by { if j > 0 { MulAtLeast(j, width); } }
    } else {
      MulAtLeast(-j, width);
      assert j * width == -((-j) * width);
    }
    if j < height {
      MulAtLeast(height - j, width);
      assert (height - j) * width == width * height - j * width;
    } else {
      if j > height {
        MulAtLeast(j - height, width);
      }
      assert j * width == (j - height) * width + width * height;
    }
  }

  /** Only the linear index is ever bounds-checked, so one column past either
      edge of the grid names a cell of the neighbouring row. */
  lemma {:induction false} ColumnWrap(width: int, j: int)
    ensures CellIdx(width, -1, j) == CellIdx(width, width - 1, j - 1)
    ensures CellIdx(width, width, j) == CellIdx(width, 0, j + 1)
  {
    assert (j - 1) * width == j * width - width;
    assert (j + 1) * width == j * width + width;
  }
}

=== FILE: maphelpers.dfy ===
/**
  Map helpers of the page: flattening the cell tokens of a map file and the
  min-max normalisation of the occupancy counts.
 */
module MapHelpers {

  // ---------------------------------------------------------------------
  // Normalisation

  /** `m` is a minimum of `s`: it occurs in `s` and no element is smaller. */
  predicate IsMinOf(s: seq<real>, m: real)
  {
    (exists k :: 0 <= k < |s| && s[k] == m) && forall k :: 0 <= k < |s| ==> m <= s[k]
  }

  predicate IsMaxOf(s: seq<real>, m: real)
  {
    (exists k :: 0 <= k < |s| && s[k] == m) && forall k :: 0 <= k < |s| ==> s[k] <= m
  }

  function SeqMin(s: seq<real>): (m: real)
    requires |s| >= 1
    ensures IsMinOf(s, m)
  {
    if |s| == 1 then s[0]
    else
      var m' := SeqMin(s[..|s| - 1]);
      assert s[..|s| - 1][0] == s[0];
      if s[|s| - 1] < m' then s[|s| - 1] else m'
  }

  function SeqMax(s: seq<real>): (m: real)
    requires |s| >= 1
    ensures IsMaxOf(s, m)
  {
    if |s| == 1 then s[0]
    else
      var m' := SeqMax(s[..|s| - 1]);
      assert s[..|s| - 1][0] == s[0];
      if s[|s| - 1] > m' then s[|s| - 1] else m'
  }

  /** The extremes of a sequence are unique. */
  lemma ExtremesUnique(s: seq<real>, lo: real, hi: real)
    requires IsMinOf(s, lo) && IsMaxOf(s, hi)
    ensures lo == SeqMin(s) && hi == SeqMax(s)
  {
    var lo', hi' := SeqMin(s), SeqMax(s);
    var a :| 0 <= a < |s| && s[a] == lo;
    var b :| 0 <= b < |s| && s[b] == lo';
    var c :| 0 <= c < |s| && s[c] == hi;
    var d :| 0 <= d < |s| && s[d] == hi';
  }

  /** The inputs `normalizeList` handles without dividing zero by zero: fewer
      than two elements, or a minimum strictly below the maximum. */
  predicate Normalizable(s: seq<real>)
  {
    |s| < 2 || SeqMin(s) < SeqMax(s)
  }

  /** Each element mapped to `(x - lo) / (hi - lo)`. */
  function Rescale(s: seq<real>, lo: real, hi: real): (r: seq<real>)
    requires lo < hi
    ensures |r| == |s|
  {
    seq(|s|, k requires 0 <= k < |s| => (s[k] - lo) / (hi - lo))
  }

  /** What `normalizeList` returns: an empty list unchanged, `[1]` for a
      singleton, and the min-max rescaling otherwise. */
  function Normalized(s: seq<real>): seq<real>
    requires Normalizable(s)
  {
    if |s| == 0 then s
    else if |s| == 1 then [1.0]
    else Rescale(s, SeqMin(s), SeqMax(s))
  }

  lemma RescaleAt(x: real, lo: real, hi: real)
    requires lo < hi
    ensures lo <= x <= hi ==> 0.0 <= (x - lo) / (hi - lo) <= 1.0
    ensures x == lo ==> (x - lo) / (hi - lo) == 0.0
    ensures x == hi ==> (x - lo) / (hi - lo) == 1.0
  {
    var d := hi - lo;
    if lo <= x <= hi {
      assert (x - lo) / d * d == x - lo;
      if (x - lo) / d > 1.0 {
        assert (x - lo) / d * d > d;
      }
    }
  }

  lemma RescaleMonotone(x: real, y: real, lo: real, hi: real)
    requires lo < hi
    ensures x <= y <==> (x - lo) / (hi - lo) <= (y - lo) / (hi - lo)
  {
    var d := hi - lo;
    assert (x - lo) / d * d == x - lo;
    assert (y - lo) / d * d == y - lo;
    assert (y - lo) / d - (x - lo) / d == (y - x) / d;
    if x <= y {
      assert (y - x) / d >= 0.0;
    } else {
      assert (y - x) / d < 0.0;
    }
  }

  /** The promises of `normalizeList` about each value: the length is kept,
      every result lies in [0,1], the minimum maps to 0 and the maximum to 1
      (a singleton maps to 1). */
  lemma NormalizedInUnit(s: seq<real>)
    requires Normalizable(s)
    ensures |Normalized(s)| == |s|
    ensures forall k :: 0 <= k < |s| ==> 0.0 <= Normalized(s)[k] <= 1.0
    ensures |s| >= 2 ==> forall k :: 0 <= k < |s| && s[k] == SeqMin(s) ==> Normalized(s)[k] == 0.0
    ensures forall k :: 0 <= k < |s| && s[k] == SeqMax(s) ==> Normalized(s)[k] == 1.0
  {
    if |s| >= 2 {
      var lo, hi := SeqMin(s), SeqMax(s);
      forall k | 0 <= k < |s|
        ensures 0.0 <= Normalized(s)[k] <= 1.0
        ensures s[k] == lo ==> Normalized(s)[k] == 0.0
        ensures s[k] == hi ==> Normalized(s)[k] == 1.0
      {
        RescaleAt(s[k], lo, hi);
      }
    }
  }

  /** Normalisation keeps the order of the elements, in both directions. */
  lemma NormalizedKeepsOrder(s: seq<real>)
    requires Normalizable(s)
    ensures |Normalized(s)| == |s|
    ensures forall a, b :: 0 <= a < |s| && 0 <= b < |s| ==> (s[a] <= s[b] <==> Normalized(s)[a] <= Normalized(s)[b])
  {
    if |s| >= 2 {
      var lo, hi := SeqMin(s), SeqMax(s);
      forall a, b | 0 <= a < |s| && 0 <= b < |s|
        ensures s[a] <= s[b] <==> Normalized(s)[a] <= Normalized(s)[b]
      {
        RescaleMonotone(s[a], s[b], lo, hi);
      }
    } else if |s| == 1 {
      assert Normalized(s) == [1.0];
    }
  }

  /** The scan of `normalizeList`: both extremes start at the first element
      and are updated on a strictly smaller or larger element. */
  method MinMax(list: array<real>) returns (minVal: real, maxVal: real)
    requires list.Length >= 1
    ensures IsMinOf(list[..], minVal) && IsMaxOf(list[..], maxVal)
  {
    minVal := list[0];
    maxVal := list[0];
    var i := 1;
    while i < list.Length
      invariant 1 <= i <= list.Length
      invariant IsMinOf(list[..i], minVal) && IsMaxOf(list[..i], maxVal)
    {
      assert list[..i + 1] == list[..i] + [list[i]];
      minVal := if list[i] < minVal then list[i] else minVal;
      maxVal := if list[i] > maxVal then list[i] else maxVal;
      i := i + 1;
    }
    assert list[..i] == list[..];
  }

  /** The second loop of `normalizeList`: every element `x` is overwritten
      with `(x - lo) / (hi - lo)`. */
  method RescaleInPlace(list: array<real>, lo: real, hi: real)
    requires lo < hi
    modifies list
    ensures list[..] == Rescale(old(list[..]), lo, hi)
  {
    ghost var s := list[..];
    var i := 0;
    while i < list.Length
      invariant 0 <= i <= list.Length
      invariant forall k :: 0 <= k < i ==> list[k] == (s[k] - lo) / (hi - lo)
      invariant forall k :: i <= k < list.Length ==> list[k] == s[k]
    {
      list[i] := (list[i] - lo) / (hi - lo);
      i := i + 1;
    }
  }

  /** `normalizeList`: an empty list is returned as it is, a singleton is
      replaced by a new `[1]`, and a longer list is rescaled in place. */
  method NormalizeList(list: array<real>) returns (r: array<real>)
    requires Normalizable(list[..])
    modifies list
    ensures list.Length != 1 ==> r == list
    ensures list.Length == 1 ==> fresh(r) && list[..] == old(list[..])
    ensures r[..] == Normalized(old(list[..]))
  {
    if list.Length < 1 {
      return list;
    }
    if list.Length == 1 {
      r := new real[1](_ => 1.0);
      return;
    }
    var minVal, maxVal := MinMax(list);
    ExtremesUnique(list[..], minVal, maxVal);
    RescaleInPlace(list, minVal, maxVal);
    r := list;
  }

  // ---------------------------------------------------------------------
  // Map files

  /** The cell tokens of already-tokenised lines, in order; a line of exactly
      one token (a blank line splits into one empty token) is skipped. */
  function Flatten(lines: seq<seq<int>>): seq<int>
  {
    if |lines| == 0 then []
    else
      var last := lines[|lines| - 1];
      Flatten(lines[..|lines| - 1]) + (if |last| == 1 then [] else last)
  }

  lemma {:induction false} FlattenAppend(a: seq<seq<int>>, b: seq<seq<int>>)
    ensures Flatten(a + b) == Flatten(a) + Flatten(b)
    decreases |b|
  {
    if |b| > 0 {
      var b' := b[..|b| - 1];
      assert (a + b)[..|a + b| - 1] == a + b';
      FlattenAppend(a, b');
    } else {
      assert a + b == a;
    }
  }

  /** A value is among the flattened cells exactly when some line of two or
      more tokens holds it. */
  lemma {:induction false} FlattenMembership(lines: seq<seq<int>>, x: int)
    ensures x in Flatten(lines) <==> exists l :: l in lines && |l| > 1 && x in l
    decreases |lines|
  {
    if |lines| > 0 {
      var init, last := lines[..|lines| - 1], lines[|lines| - 1];
      FlattenMembership(init, x);
      assert lines == init + [last];
      if exists l :: l in lines && |l| > 1 && x in l {
        var l :| l in lines && |l| > 1 && x in l;
        if l != last {
          assert l in init;
        }
      }
    }
  }

  /** The number of flattened cells is the total length of the lines that
      are not skipped. */
  function CountCells(lines: seq<seq<int>>): nat
  {
    if |lines| == 0 then 0
    else
      var last := lines[|lines| - 1];
      CountCells(lines[..|lines| - 1]) + (if |last| == 1 then 0 else |last|)
  }

  lemma {:induction false} FlattenLength(lines: seq<seq<int>>)
    ensures |Flatten(lines)| == CountCells(lines)
    decreases |lines|
  {
    if |lines| > 0 {
      FlattenLength(lines[..|lines| - 1]);
    }
  }

  function ToReals(xs: seq<int>): (r: seq<real>)
    ensures |r| == |xs|
  {
    seq(|xs|, k requires 0 <= k < |xs| => xs[k] as real)
  }

  /** The part of a parsed map the model keeps. `countMatches` is false when
      the page would warn that the map has the wrong number of cells. */
  datatype MapData = MapData(width: int, height: int, numCells: int, cells: seq<real>, countMatches: bool)

  /** `parseMap` on already-tokenised lines. The first line is the header
      (`origin_x origin_y width height meters_per_cell`) and is not counted
      among the cells; every later line of more than one token contributes
      its tokens in order; the cells are then normalised. A count that
      differs from `width*height` is only flagged. */
  method ParseMap(lines: seq<seq<int>>) returns (m: MapData)
    requires |lines| >= 1 && |lines[0]| >= 4
    requires Normalizable(ToReals(Flatten(lines[1..])))
    ensures m.width == lines[0][2] && m.height == lines[0][3]
    ensures m.numCells == m.width * m.height
    ensures m.cells == Normalized(ToReals(Flatten(lines[1..])))
    ensures m.countMatches <==> |Flatten(lines[1..])| == m.numCells
  {
    var header := lines[0];
    var width, height := header[2], header[3];
    var numCells := width * height;
    var cells: seq<int> := [];
    var li := 1;
    while li < |lines|
      invariant 1 <= li <= |lines|
      invariant cells == Flatten(lines[1..li])
    {
      var line := lines[li];
      assert lines[1..li + 1] == lines[1..li] + [line];
      FlattenAppend(lines[1..li], [line]);
      if |line| != 1 {
        var e := 0;
        while e < |line|
          invariant 0 <= e <= |line|
          invariant cells == Flatten(lines[1..li]) + line[..e]
        {
          assert line[..e + 1] == line[..e] + [line[e]];
          cells := cells + [line[e]];
          e := e + 1;
        }
        assert line[..e] == line;
      }
      li := li + 1;
    }
    assert lines[1..li] == lines[1..];
    var list := new real[|cells|](k requires 0 <= k < |cells| => cells[k] as real);
    assert list[..] == ToReals(cells);
    var normalized := NormalizeList(list);
    m := MapData(width, height, numCells, normalized[..], |normalized[..]| == numCells);
  }
}

=== FILE: scene.dfy ===
/**
  The page component (`SceneView`): the loaded map, the page's own copy of the
  potential field, the brush the page applies to it, and the goal check.
 */
module Scene {
  import opened Grid
  import opened Brush
  import opened MapHelpers
  import Engine

  /** Page configuration. */
  const CollisionThreshold: real := 0.5
  const PaintCellDelta: real := 0.01
  const PaintbrushRadius: int := 3

  /** `setGoal`'s test for a non-empty goal `[row, col]`: the occupancy at its
      index is below 0.5. A missing column or an index outside the occupancy
      reads `undefined`, which is not below 0.5. */
  predicate GoalValid(cells: seq<real>, width: int, goal: seq<int>)
  {
    && |goal| >= 2
    && var idx := Idx(width, Cell(goal[0], goal[1]));
    && 0 <= idx < |cells|
    && cells[idx] < 0.5
  }

  /** A goal is valid exactly when it names a cell of the occupancy that the
      page brush treats as free and whose occupancy is not exactly 0.5: the
      goal test uses `<` where the brush skips only cells above the
      threshold, so a cell at 0.5 is paintable but never a valid goal. */
  lemma GoalValidIffFree(cells: seq<real>, width: int, goal: seq<int>)
    ensures GoalValid(cells, width, goal) <==>
      && |goal| >= 2
      && 0 <= Idx(width, Cell(goal[0], goal[1])) < |cells|
      && !Blocked(cells, CollisionThreshold, Idx(width, Cell(goal[0], goal[1])))
      && cells[Idx(width, Cell(goal[0], goal[1]))] != CollisionThreshold
  {
  }

  /** The React state of the page that the model keeps. `setState` replaces
      some of its fields and keeps the others. */
  datatype PageState = PageState(
    cells: seq<real>, width: int, height: int, numCells: int, mapLoaded: bool,
    path: seq<seq<int>>, clickedCell: seq<int>, goalCell: seq<int>, goalValid: bool,
    drawFieldIncrease: bool)

  class SceneView {
    var state: PageState
    /** The page's copy of the potential field. */
    var field: array<real>
    /** The dimensions of the field canvas; the page brush indexes with its
        width. */
    var gridWidth: int
    var gridHeight: int

    /** The stroke `changeFieldCell` applies at (row, col): the configured
        radius, threshold and delta, the direction chosen on the page, and a
        one-sided clamp. */
    function PageStroke(row: int, col: int): Stroke
      reads this
    {
      Stroke(row, col, PaintbrushRadius, gridWidth, state.cells, CollisionThreshold,
             OneSided(state.drawFieldIncrease, PaintCellDelta))
    }

    constructor ()
      ensures state == PageState([], 0, 0, 0, false, [], [], [], true, false)
      ensures field.Length == 0 && gridWidth == 0 && gridHeight == 0
    {
      state := PageState([], 0, 0, 0, false, [], [], [], true, false);
      field := new real[0];
      gridWidth, gridHeight := 0, 0;
    }

    /** `updateMap`: install a parsed map, clear the path and the clicked and
        goal cells, and reset the field to `num_cells` ones. `Array(n)` throws
        a RangeError for a negative or oversized `n`; `ok` is false then, the
        old field stays and the field canvas keeps its size. */
    method UpdateMap(result: MapData) returns (ok: bool)
      modifies this
      ensures state == old(state).(cells := result.cells, width := result.width, height := result.height,
                                   numCells := result.numCells, mapLoaded := |result.cells| > 0,
                                   path := [], clickedCell := [], goalCell := [])
      ensures ok <==> 0 <= result.numCells <= Engine.MaxArrayLength
      ensures ok ==> fresh(field) && field[..] == seq(result.numCells, _ => 1.0)
      ensures ok ==> gridWidth == result.width && gridHeight == result.height
      ensures !ok ==> field == old(field) && gridWidth == old(gridWidth) && gridHeight == old(gridHeight)
    {
      state := state.(cells := result.cells, width := result.width, height := result.height,
                      numCells := result.numCells, mapLoaded := |result.cells| > 0,
                      path := [], clickedCell := [], goalCell := []);
      if result.numCells < 0 || result.numCells > Engine.MaxArrayLength {
        return false;
      }
      field := new real[result.numCells](_ => 1.0);
      gridWidth, gridHeight := state.width, state.height;
      ok := true;
    }

    /** `onIncreaseCheck`: flip the brush direction. */
    method OnIncreaseCheck()
      modifies this`state
      ensures state == old(state).(drawFieldIncrease := !old(state).drawFieldIncrease)
    {
      state := state.(drawFieldIncrease := !state.drawFieldIncrease);
    }

    /** `changeFieldCell` of the page: one brush call centred on (row, col)
        over the page's field. Only cells of the half-open disk whose index is
        below `num_cells` and whose occupancy is not above the threshold are
        written; the blocked cells and the "all values in [0,1]" invariant
        are kept. */
    method ChangeFieldCell(row: int, col: int)
      requires field.Length == state.numCells
      modifies field
      ensures field[..] == Paint(PageStroke(row, col), old(field[..]))
      ensures forall k :: 0 <= k < field.Length && Blocked(state.cells, CollisionThreshold, k) ==>
        field[k] == old(field[k])
      ensures AllInUnit(old(field[..])) ==> AllInUnit(field[..])
    {
      ghost var s := PageStroke(row, col);
      ghost var f0 := field[..];
      var i := row - PaintbrushRadius;
      while i < row + PaintbrushRadius
        invariant row - PaintbrushRadius <= i
        invariant i <= row + PaintbrushRadius || i == row - PaintbrushRadius
        invariant field[..] == PaintRows(s, f0, i)
      {
        var j := col - PaintbrushRadius;
        while j < col + PaintbrushRadius
          invariant col - PaintbrushRadius <= j
          invariant j <= col + PaintbrushRadius || j == col - PaintbrushRadius
          invariant field[..] == PaintRow(s, PaintRows(s, f0, i), i, j)
        {
          if (i - row) * (i - row) + (j - col) * (j - col) <= PaintbrushRadius * PaintbrushRadius {
            var idx := CellIdx(gridWidth, j, i);
            if !(idx < 0 || idx >= state.numCells) && !(idx < |state.cells| && state.cells[idx] > CollisionThreshold) {
              if !state.drawFieldIncrease {
                field[idx] := Max(field[idx] - PaintCellDelta, 0.0);
              } else {
                field[idx] := Min(field[idx] + PaintCellDelta, 1.0);
              }
            }
          }
          j := j + 1;
        }
        i := i + 1;
      }
      forall k | 0 <= k < field.Length && Blocked(state.cells, CollisionThreshold, k)
        ensures field[k] == f0[k]
      {
        PaintAt(s, f0, k);
      }
      if AllInUnit(f0) {
        PaintKeepsUnit(s, f0);
      }
    }

    /** `setGoal`: an empty goal is refused and changes nothing; any other
        goal is stored together with its validity, which is returned. */
    method SetGoal(goal: seq<int>) returns (valid: bool)
      modifies this`state
      ensures |goal| == 0 ==> !valid && state == old(state)
      ensures |goal| > 0 ==> valid == GoalValid(old(state).cells, old(state).width, goal)
      ensures |goal| > 0 ==> state == old(state).(goalCell := goal, goalValid := valid)
    {
      if |goal| == 0 {
        return false;
      }
      valid := |goal| >= 2 && var idx := CellIdx(state.width, goal[1], goal[0]);
        0 <= idx < |state.cells| && state.cells[idx] < 0.5;
      state := state.(goalCell := goal, goalValid := valid);
    }
  }
}
